=== FILE: README.md ===
# modeler-stripe in Dafny

modeler-stripe is a storage adapter. It lets a generic document-modeling
library keep its entities as customers of the Stripe API. Its logic is a
field mapping in both directions:

- on save (`_beforeSave`), the library's bookkeeping properties `rev`,
  `created` and `updated` move into a JSON blob at `metadata.modeler`;
  `id` is dropped on updates; and application properties that were stored
  under a `<name>_stripe` collision key get their own name back;
- on the way back, `_afterSave` removes Stripe's `id` and turns Stripe's
  bookkeeping-named properties into collision keys; `_afterLoad` then sets
  `id` again from Stripe's object and restores the bookkeeping from the
  blob.

Around the mapping sit a few small decisions:

- which options the adapter refuses at set-up;
- which Stripe call `_save` makes;
- the parameters `_tail` asks Stripe's list endpoint for, and how its
  offset advances;
- that `_head` always fails;
- how `_load` and `_destroy` read Stripe's answers.

The model works on immutable values, so an entity is never mutated. Module
by module:

- `Js` (js.dfy): JavaScript values (`undefined`, `null`, booleans, integers,
  NaN, strings, objects), entities as finite maps from property names to
  values, truthiness, and the coercions the adapter relies on: `Number()` on
  decimal digit strings, `>`/`>=`/`<=` against a number, and `+= n`.
- `Strings` (strings.dfy): `indexOf`, the unanchored and the anchored
  literal match.
- `Bookkeeping` (bookkeeping.dfy):
  - the bookkeeping names and the `_stripe` suffix;
  - the name a collision key is restored to;
  - the blob codec. JSON and the hydration library are parameters (`Codec`),
    and each of their throws is a `None`.
- `SaveMapping` (save_mapping.dfy): `_beforeSave`. Its loop visits
  `Object.keys` of the working copy and mutates the copy as it goes. The
  model therefore runs it as a fold over an explicit key order `order`.
  Properties of the payload's keys and values are proved for every order
  under `NoClash`: collision keys restore distinct names, none of them a
  bookkeeping name. A concrete lemma shows that without `NoClash` the
  payload depends on the order. What `_afterLoad` returns for a Stripe
  customer lies outside `NoClash` (`Save.LoadedBreaksNoClash`). If the
  modeling library hands `created_stripe` back unchanged and its copy keeps
  that key before `created`, re-saving the entity loses the library's
  `created` (see Findings). The stash is therefore given twice: as written
  (`Run`) and with line 38 corrected (`RunIntended`), which stashes the
  entity's own values in every order.
  The blob's text is abstracted by `Codec` (see Left out).
- `LoadMapping` (load_mapping.dfy): `_afterSave`, `_afterLoad`, `_loadMulti`.
  `_afterSave` is given twice: as written (`AfterSave`) and corrected
  (`AfterSaveIntended`); see Findings. `_afterLoad` (`AfterLoad`) and
  `_save`'s reply (`Save.SaveReply`) build on the as-written one, as the
  source does. `AfterLoadIntended` and `Save.SaveReplyIntended` are the
  same operations built on the corrected one.
- `Save` (save.dfy): `_save`'s request and reply, and the round trip of the
  bookkeeping through Stripe.
- `Paging` (paging.dfy): `_head`, and `_tail`'s requests over a run of pages.
- `Outcomes` (outcomes.dfy): `_load` and `_destroy`.
- `Options` (options.dfy): the set-up checks.

## Model

| member | source | states |
|---|---|---|
| Options.Configure | index.js:12-14 | Set-up succeeds exactly when the secret key is truthy and the name is a string starting with "customers". Failures come in source order: "secret key required", then "name required", then a TypeError for a non-string name, then "collection not supported: " followed by the name. |
| Options.ConfigureNamePrefix | index.js:12-14 | With a truthy secret key, every non-empty string name is accepted exactly when it starts with "customers", keeping the name and the key; every other such name is refused with "collection not supported: " followed by the name. |
| Options.ConfigureExamples | index.js:12-14 | "customers_archive" is accepted, "charges" is refused with its name in the message, and a missing key is reported before the name. |
| Strings.IndexOf | index.js:42 | `indexOf` gives the first index where the pattern occurs, or -1 exactly when it occurs nowhere. |
| Bookkeeping.RenameTargetIsIndexOf | index.js:42-43 | The restored name of a key is `prop.substr(0, prop.indexOf('_stripe'))` when the index is above -1, and there is none otherwise. |
| Bookkeeping.RenameTargetMeaning | index.js:42-43 | A key is a collision key exactly when `_stripe` occurs in it. Its restored name is the proper prefix before the first occurrence. |
| Bookkeeping.TargetIsFinal | index.js:42-43 | A restored name never carries the suffix again, and it differs from the key it came from. |
| Bookkeeping.SpecialNamesStay | index.js:36-45 | `id`, `metadata`, `rev`, `created` and `updated` are never renamed. |
| SaveMapping.Prepare | index.js:25-31 | The working copy always has `metadata`: the entity's own when truthy, an empty object otherwise. It has `id` exactly when the entity has one and `rev > 1` fails. Every other property is the entity's. |
| SaveMapping.Run | index.js:34-46 | Whatever the key order, no visited collision key survives the loop, `metadata` is kept, and only bookkeeping names are stashed. |
| SaveMapping.RunProcesses | index.js:34-46 | After visiting any set of keys in any order, under `NoClash`: the stash is exactly the visited bookkeeping properties with their values. Visited bookkeeping and collision keys are gone. Restored names carry their collision key's value. Every other property is unchanged. |
| SaveMapping.WithModeler | index.js:47-50 | When `metadata` is an object, its `modeler` entry becomes the blob and its other entries stay. Otherwise the copy is unchanged. Nothing but `metadata` is touched, and `metadata` stays present. |
| SaveMapping.BeforeSave | index.js:24-52 | For every key order the payload has `metadata` and no key with the `_stripe` suffix. |
| SaveMapping.BeforeSaveStashesBookkeeping | index.js:34-48 | No bookkeeping property stays at the top level. When the metadata can be written, it is the application's own entries plus `modeler`, the encoding of exactly the entity's bookkeeping properties with their values. |
| SaveMapping.BeforeSaveId | index.js:29-31 | Under `NoClash` and with no collision key restoring `id` (no `id_stripe`-style key), `id` reaches the payload exactly when the entity has it and `rev > 1` fails, and then with its value. |
| SaveMapping.BeforeSaveRenames | index.js:41-45 | Every collision key leaves the payload. Its value sits under the restored name and overrides a property of that name. |
| SaveMapping.BeforeSavePassThrough | index.js:34-46 | Every other property passes through with its value. The payload has no keys besides `metadata`, untouched entity keys and restored names. |
| SaveMapping.BeforeSaveOrderMatters | index.js:34-46 | With both `rev` and `rev_stripe` present, visiting `rev` first leaves a top-level `rev` in the payload, and visiting it last does not. |
| SaveMapping.ResaveLosesCreated | index.js:34-44 | For an entity shaped like `_afterLoad`'s result, with `created_stripe` undefined before `created: 5` and `metadata` visited first, the loop stashes `created` as undefined, while the entity's own value is 5 and the corrected loop stashes 5. |
| SaveMapping.RunIntendedStashes | index.js:34-40 | With line 38 reading the entity's own value, the stash after any visit order is exactly the visited bookkeeping properties with their original values, with no premise on collision keys. |
| SaveMapping.LoopIntendedStashes | index.js:34-40 | The corrected loop over all keys of the prepared copy stashes exactly the entity's bookkeeping properties, in every key order and for every entity. |
| LoadMapping.CollisionKeySpelling | index.js:59 | The collision key of a bookkeeping property is its name followed by `_stripe`. |
| Bookkeeping.SuffixedRestores | index.js:42-43 | A name without an underscore, followed by `_stripe`, is restored to that name. |
| LoadMapping.CollisionKeyRestores | index.js:42-59 | `_beforeSave`'s renaming (line 43) turns a collision key `_afterSave` made (line 59) back into its bookkeeping name. |
| LoadMapping.AfterSave | index.js:54-63 | The result has no `id` and no bookkeeping property. Its keys are the entity's other keys plus `<prop>_stripe` for each bookkeeping property present. Each such key holds undefined. Every other value is copied. |
| LoadMapping.AfterSaveDropsCollisionValue | index.js:55-60 | A Stripe `created` timestamp reaches `created_stripe` as undefined, while the corrected mapping keeps it. |
| LoadMapping.AfterSaveIntended | index.js:56-60 | As `AfterSave`, except that each `<prop>_stripe` holds the property's value. |
| LoadMapping.WithId | index.js:68 | `_afterSave`'s result gains `id` with the entity's value, undefined when it has none; every other key and value is kept. |
| LoadMapping.LoadOntoAgrees | index.js:67-82 | Whatever `_afterSave` returned, lines 67-82 succeed or fail alike and give the same `id` and bookkeeping properties. |
| LoadMapping.LoadOnto | index.js:67-82 | From `_afterSave`'s result: an error exactly when a blob is present and does not decode to an object, and then a TypeError. On success `id` is the entity's; the bookkeeping properties are exactly the decoded blob's with its values, or none without a blob; every other key and value is `_afterSave`'s. |
| LoadMapping.AfterLoad | index.js:65-83 | `_afterLoad` fails exactly when a blob is present and does not decode to an object, with a TypeError. On success: `id` is the entity's; with no blob, no bookkeeping property; with a blob, exactly the bookkeeping properties the decoded blob has, with its values; every other key and value is the as-written `_afterSave`'s. |
| LoadMapping.AfterLoadDropsCollisionValues | index.js:55-66 | On every successful load, each bookkeeping-named property Stripe returned sits under its collision key as undefined, so Stripe's own `created` is lost. |
| LoadMapping.AfterLoadIntended | index.js:65-83 | Built on the corrected `_afterSave`, the load succeeds or fails exactly when `_afterLoad` does, with the same `id` and bookkeeping properties. |
| LoadMapping.AfterLoadIntendedKeepsCollisionValues | index.js:56-66 | With the corrected `_afterSave`, Stripe's own `rev`, `created` or `updated` survives a load under `<prop>_stripe`. |
| LoadMapping.LoadMulti | index.js:20-22 | Success exactly when every element loads. The results correspond one to one and in order to `_afterLoad` of each element. A failure is the TypeError. |
| Save.SaveRequest | index.js:104-117 | `_save` updates exactly when `rev > 1`, naming the entity's `id`, and otherwise creates. Either way the payload is `_beforeSave`'s result for the entity, so every `BeforeSave` property holds of it; in particular it carries `metadata`. |
| Save.SaveRequestCarriesId | index.js:104-112 | For an entity that has an `id`, under `NoClash` and with no `id_stripe`-style key, the `id` reaches Stripe exactly one way: as the customer to update, absent from the payload, or inside a creation's payload. |
| Save.SaveReply | index.js:106-115 | Stripe's error is passed on unchanged. Otherwise the reply is `_afterSave` of the saved customer: no `id`, no bookkeeping property, each bookkeeping-named property Stripe returned sits under its collision key as undefined, and every other property is copied unless a present bookkeeping name's collision key overwrites it. |
| Save.SaveReplyIntended | index.js:106-115 | The reply built on the corrected `_afterSave`: the collision keys hold Stripe's values. |
| Save.LoadedBreaksNoClash | index.js:54-68 | For a customer with a bookkeeping-named property, `_afterLoad`'s result carries that property's collision key, which restores a bookkeeping name, so it falls outside `NoClash`. |
| Save.SaveThenLoadRestoresBookkeeping | index.js:65-82 | When decoding inverts encoding and Stripe returns the blob `_beforeSave` wrote at line 48, `_afterLoad` succeeds. Its `id` is Stripe's, and it has exactly the entity's `rev`, `created` and `updated`, with their values. |
| Paging.Head | index.js:85-87 | `_head` always fails with the "head() is not supported" message. |
| Paging.ListParams | index.js:91-95 | The offset asked for is the current one, or 0 when that is falsy. `count` is passed unchanged exactly when it is truthy and between 1 and 100, and it then reads as a number in that range. |
| Paging.Requests | index.js:89-102 | A run of fetches makes one request per page received plus the first, starting from the given parameters. |
| Paging.TailPagesContiguous | index.js:89-102 | From any numeric offset, negative ones included, or null, the i-th request asks for the start plus the lengths of the pages before it, always with the same `count`. |
| Paging.TailUndefinedOffsetRepeats | index.js:92-98 | From an undefined offset every request asks for offset 0. |
| Paging.TailIntendedContiguous | index.js:92-98 | With the offset advanced from the offset actually requested, pages are contiguous from any falsy or non-negative numeric start. |
| Outcomes.Load | index.js:119-124 | An error is passed on unless its message contains "No such customer" or "No such card". A missing customer then reads as null, and a present one goes through `_afterLoad`, whose TypeError escapes. |
| Outcomes.LoadMissingIsAbsent | index.js:121-122 | Any message containing "No such customer" or "No such card", whatever text surrounds the phrase, reads as an absent customer when nothing came back. |
| Outcomes.LoadPassesOtherErrors | index.js:119-124 | Every error whose message contains neither phrase is passed on unchanged, whatever Stripe returned with it. |
| Outcomes.InvalidKeyIsPassedOn | index.js:121 | "Invalid API Key" contains neither phrase, so it is passed on. |
| Outcomes.Destroy | index.js:126-134 | Deletion succeeds exactly when there is no error and the confirmation's `deleted` is truthy. Stripe's error is passed on, and otherwise the error is "Delete failed". |

## Left out

- Stripe's SDK is not modelled: `create`, `update`, `retrieve`, `del`, `list` and `setApiVersion`, the HTTP traffic and the callbacks. The model starts from the answers those calls give (an optional error plus a value) and states what the adapter does with them.
- The modeling library is not modelled. Revisions, `api.copy` and the orchestration of save, load and list are foreign code. `copy` is read as a value copy, which immutable maps give for free.
- JSON and the hydration library are abstract (`Codec`). Encoding is taken as total. The round trip is a hypothesis (`RoundTrips`), not a theorem.
- JavaScript numbers are integers here. Fractions, Infinity, and `Number()`'s treatment of whitespace, signs, hex and exponents are not modelled; such strings read as NaN. Arrays and Dates are not values of the model.
- `Object.keys` order, integer-like keys first, is not derived. The loop order is a parameter, and the properties hold for every order under `NoClash`.
- SaveMapping.BeforeSaveStashesBookkeeping: like every save-side lemma premised on `NoClash` (`BeforeSaveId`, `BeforeSaveRenames`, `BeforeSavePassThrough`, `Save.SaveRequestCarriesId`, `Save.SaveThenLoadRestoresBookkeeping`), it does not cover saving back an entity `_afterLoad` returned for a customer with `created`, which is every Stripe customer (`Save.LoadedBreaksNoClash`). For such entities only `SaveMapping.BeforeSave`, `SaveMapping.Run` and the corrected `SaveMapping.LoopIntendedStashes` hold.
- SaveMapping.NoClash also asks for distinct restored names. Only the statements about restored values need that half; the stash and `id` statements carry it because they come from the same loop invariant.
- `_afterSave`'s loop over `Object.keys(entity)` (line 57) is run over the three bookkeeping names instead. This makes no difference, because the loop acts only on those names and each writes only its own collision key.
- SaveMapping.BeforeSaveStashesBookkeeping: the blob's text depends on the visit order. `JSON.stringify` lists the stash's keys in insertion order, which is the order the loop visits them (lines 38 and 48). `Codec.encode` takes a map, so the model abstracts that order away.
- LoadMapping.AfterLoad: the "don't throw" comment at line 75 is not claimed. A blob that does not decode to an object makes `prop in metadata` throw, modelled as a TypeError.
- Outcomes.Load: an error without a `message` property, which would make line 121 throw, is not modelled. Every error carries a message, except the adapter's own TypeError.
- Paging.Requests: `fetchNext` is re-entered by the caller through a callback. The model lists the requests made when the caller asks for every next page. Stopping early only shortens the list.
- Options.Configure: the `stripe[name]` collection lookup of line 18 is not modelled. It is the SDK's.

## Findings

| source | as written | input that shows it | evidently intended | confidence | as-written member | corrected member |
|---|---|---|---|---|---|---|
| index.js:55-59 | `e[prop + '_stripe'] = e[prop]` reads from the copy that `_.omit` has already stripped of `prop`, so the collision key holds undefined. Through lines 66, 108 and 114 this loses Stripe's `created` on every load and every save reply (`LoadMapping.AfterLoadDropsCollisionValues`) | a Stripe object `{id: 'cus_1', created: 1500000000}`: `_afterSave` gives `created_stripe: undefined` | the comment says "move": `created_stripe` should hold 1500000000, read from `entity[prop]` | high, not executed | LoadMapping.AfterSaveDropsCollisionValue | LoadMapping.AfterSaveIntended |
| index.js:34-44 | line 38 stashes `e[prop]` from the working copy, which a collision key visited earlier has already overwritten at line 43 | an entity shaped like `_afterLoad`'s result for a customer with `created`, keys visited as `metadata`, `created_stripe` (undefined), `created` (5): the blob gets `created` undefined | stash the entity's own value, so the library's `created` reaches the blob in every key order | medium, not executed; depends on the modeling library passing `created_stripe` back unchanged and keeping it before `created` | SaveMapping.ResaveLosesCreated | SaveMapping.LoopIntendedStashes |
| index.js:92-98 | `offset += entities.data.length` advances the closure's offset, which stays undefined-based when `_tail` was called without one: `undefined + n` is NaN, and NaN is falsy | `_tail(undefined, 10, cb)` with pages of 10: every request asks for offset 0, so the first page comes back on every call | advance from the offset actually requested (`(offset ? offset : 0) + n`), so pages follow one another | medium, not executed | Paging.TailUndefinedOffsetRepeats | Paging.TailIntendedContiguous |

=== FILE: bookkeeping.dfy ===
/** The adapter's vocabulary shared by both directions of the mapping: the
    modeling library's bookkeeping properties, the `_stripe` collision
    suffix, and the serialisation of the bookkeeping blob kept in Stripe's
    `metadata.modeler`. */
module Bookkeeping {
  import opened Js
  import opened Strings

  /** The modeling library's own properties, which Stripe must not see
      (index.js line 8). */
  const InternalProps: seq<string> := ["rev", "created", "updated"]

  /** Marks an application property whose name collides with one of Stripe's. */
  const StripeSuffix: string := "_stripe"

  /** Membership in `InternalProps`, spelled out: the solver reads three
      string equalities far more cheaply than membership in a sequence
      literal. `RestoreBookkeeping` relies on the two agreeing. */
  predicate IsInternal(k: string)
  {
    k == "rev" || k == "created" || k == "updated"
  }

  /** The bookkeeping properties of `e`, with their values. */
  function Stash(e: Entity): Entity
  {
    map k | k in e && IsInternal(k) :: e[k]
  }

  /** Scans `k` from index `i` for the first `_stripe` and yields the part
      of `k` before it. */
  function RenameFrom(k: string, i: nat): Option<string>
    requires i <= |k|
    decreases |k| - i
  {
    if i + |StripeSuffix| > |k| then None
    else if k[i..i + |StripeSuffix|] == StripeSuffix then Some(k[..i])
    else RenameFrom(k, i + 1)
  }

  /** The name a collision key is restored to: the part before the first
      `_stripe`; None for a key without the suffix. */
  function RenameTarget(k: string): Option<string>
  {
    RenameFrom(k, 0)
  }

  lemma {:induction false} RenameFromIsIndexFrom(k: string, i: nat)
    requires i <= |k|
    decreases |k| - i
    ensures RenameFrom(k, i) == (var j := IndexFrom(k, StripeSuffix, i); if j >= 0 then Some(k[..j]) else None)
  {
    if i + |StripeSuffix| <= |k| && k[i..i + |StripeSuffix|] != StripeSuffix {
      RenameFromIsIndexFrom(k, i + 1);
    }
  }

  /** The scan is `prop.substr(0, prop.indexOf('_stripe'))` guarded by
      `indexOf > -1`, as in index.js lines 42-43. */
  lemma RenameTargetIsIndexOf(k: string)
    ensures RenameTarget(k) == (var i := IndexOf(k, StripeSuffix); if i >= 0 then Some(k[..i]) else None)
  {
    RenameFromIsIndexFrom(k, 0);
  }

  /** A key is a collision key exactly when the suffix occurs in it, and
      its restored name is the proper prefix before the first occurrence. */
  lemma RenameTargetMeaning(k: string)
    ensures RenameTarget(k).Some? <==> exists j :: OccursAt(k, StripeSuffix, j)
    ensures RenameTarget(k).Some? ==>
      var t := RenameTarget(k).value;
      |t| < |k| && t == k[..|t|] && OccursAt(k, StripeSuffix, |t|)
      && forall j :: 0 <= j < |t| ==> !OccursAt(k, StripeSuffix, j)
  {
    RenameTargetIsIndexOf(k);
  }

  /** A restored name never carries the suffix again. */
  lemma {:induction false} TargetIsFinal(k: string)
    requires RenameTarget(k).Some?
    ensures RenameTarget(RenameTarget(k).value).None?
    ensures RenameTarget(k).value != k
  {
    RenameTargetIsIndexOf(k);
    var i := IndexOf(k, StripeSuffix);
    RenameTargetIsIndexOf(k[..i]);
    forall j | OccursAt(k[..i], StripeSuffix, j)
      ensures false
    {
      OccursInPrefix(k, i, StripeSuffix, j);
    }
  }

  /** A name without an underscore, followed by the suffix, is restored to
      itself: the scan meets no `_stripe` before the appended one. */
  lemma {:induction false} RenameFromSuffixed(p: string, i: nat)
    requires i <= |p|
    requires forall j :: i <= j < |p| ==> p[j] != '_'
    decreases |p| - i
    ensures RenameFrom(p + StripeSuffix, i) == Some(p)
  {
    var k := p + StripeSuffix;
    if i == |p| {
      assert k[i..i + |StripeSuffix|] == StripeSuffix;
      assert k[..i] == p;
    } else {
      assert k[i..i + |StripeSuffix|][0] == p[i];
      RenameFromSuffixed(p, i + 1);
    }
  }

  /** `_beforeSave`'s renaming undoes the suffixing of a name without an
      underscore. */
  lemma SuffixedRestores(p: string)
    requires forall j :: 0 <= j < |p| ==> p[j] != '_'
    ensures RenameTarget(p + StripeSuffix) == Some(p)
  {
    RenameFromSuffixed(p, 0);
  }

  /** None of the names the adapter treats specially carries the suffix. */
  lemma SpecialNamesStay()
    ensures RenameTarget("id").None?
    ensures RenameTarget("metadata").None?
    ensures RenameTarget("rev").None?
    ensures RenameTarget("created").None?
    ensures RenameTarget("updated").None?
  {
    assert "metadata"[0..7][0] != StripeSuffix[0];
    assert "metadata"[1..8][0] != StripeSuffix[0];
  }

  /** JSON text together with the hydration library. Neither is part of
      this model, so the adapter receives them as functions:
      `encode` is `JSON.stringify(hydration.dehydrate(m))`, `parse` is
      `JSON.parse` and `hydrate` is `hydration.hydrate`, each None when it
      throws. */
  datatype Codec = Codec(
    encode: Entity -> string,
    parse: Value -> Option<Value>,
    hydrate: Value -> Option<Value>)

  /** What the local `metadata` of `_afterLoad` holds once the try block
      ends (index.js lines 71-75): undefined when parsing throws, the
      parsed value when only hydration throws, else the hydrated value. */
  function Decoded(c: Codec, blob: Value): Value
  {
    match c.parse(blob)
    case None => Undefined
    case Some(parsed) =>
      match c.hydrate(parsed)
      case None => parsed
      case Some(hydrated) => hydrated
  }

  /** The hypothesis under which the blob written for `m` reads back as `m`:
      decoding inverts encoding on `m`, and the text is not empty (JSON
      text of an object never is). */
  predicate RoundTrips(c: Codec, m: Entity)
  {
    c.encode(m) != "" && Decoded(c, Str(c.encode(m))) == Obj(m)
  }
}

=== FILE: js.dfy ===
/** The slice of JavaScript value semantics that the Stripe adapter relies on:
    values and plain objects, truthiness, numeric coercion for `>`/`>=`/`<=`,
    the `+` used to advance a list offset, and property reads. */
module Js {

  /** A JavaScript value. Numbers are integers or NaN; `Obj` is a plain
      object given by its own enumerable properties. */
  datatype Value =
    | Undefined
    | Null
    | Bool(b: bool)
    | Num(n: int)
    | NaN
    | Str(s: string)
    | Obj(props: map<string, Value>)

  /** A record as the modeling library and Stripe exchange it: property name to value. */
  type Entity = map<string, Value>

  datatype Option<+T> = None | Some(value: T)

  /** `new Error(message)`, or a TypeError raised by the engine itself. */
  datatype Error = Error(message: string) | TypeError

  datatype Result<+T> = Ok(value: T) | Err(error: Error)

  /** `e[k]`: a missing property reads as undefined. */
  function Get(e: Entity, k: string): Value
  {
    if k in e then e[k] else Undefined
  }

  /** `v[k]` on a value already known to be truthy: only objects carry the
      properties this adapter reads (`modeler`, `deleted`). */
  function PropOf(v: Value, k: string): Value
  {
    if v.Obj? then Get(v.props, k) else Undefined
  }

  /** JavaScript truthiness (`!!v`). */
  predicate Truthy(v: Value)
  {
    match v
    case Undefined => false
    case Null => false
    case Bool(b) => b
    case Num(n) => n != 0
    case NaN => false
    case Str(s) => s != ""
    case Obj(_) => true
  }

  predicate IsDigit(c: char)
  {
    '0' <= c <= '9'
  }

  /** The value of a string of decimal digits, read left to right. */
  function DigitsValue(s: string): nat
    requires forall i :: 0 <= i < |s| ==> IsDigit(s[i])
  {
    if s == [] then 0
    else
      assert IsDigit(s[|s| - 1]);
      10 * DigitsValue(s[..|s| - 1]) + (s[|s| - 1] as int - '0' as int)
  }

  /** `Number(s)` for the empty string and for plain digit strings; every
      other string reads as NaN (None). */
  function StringToNumber(s: string): Option<int>
  {
    if forall i :: 0 <= i < |s| ==> IsDigit(s[i]) then Some(DigitsValue(s)) else None
  }

  /** `Number(v)`, with None standing for NaN. A plain object converts
      through "[object Object]", which is NaN. */
  function ToNumber(v: Value): Option<int>
  {
    match v
    case Undefined => None
    case Null => Some(0)
    case Bool(b) => Some(if b then 1 else 0)
    case Num(n) => Some(n)
    case NaN => None
    case Str(s) => StringToNumber(s)
    case Obj(_) => None
  }

  /** `v > k`, `v >= k`, `v <= k` against a number: false whenever `v` is NaN. */
  predicate GreaterThan(v: Value, k: int)
  {
    var n := ToNumber(v);
    n.Some? && n.value > k
  }

  predicate AtLeast(v: Value, k: int)
  {
    var n := ToNumber(v);
    n.Some? && n.value >= k
  }

  predicate AtMost(v: Value, k: int)
  {
    var n := ToNumber(v);
    n.Some? && n.value <= k
  }

  function DigitChar(d: nat): char
    requires d < 10
  {
    ('0' as int + d) as char
  }

  /** The decimal rendering of a natural number, as `String(n)` gives it. */
  function Decimal(n: nat): (r: string)
    ensures |r| > 0
    ensures forall i :: 0 <= i < |r| ==> IsDigit(r[i])
  {
    if n < 10 then [DigitChar(n)] else Decimal(n / 10) + [DigitChar(n % 10)]
  }

  /** `v + n` for a natural number `n`: numeric addition after coercion,
      or string concatenation when `v` is a string or a plain object. */
  function AddCount(v: Value, n: nat): Value
  {
    match v
    case Undefined => NaN
    case Null => Num(n)
    case Bool(b) => Num((if b then 1 else 0) + n)
    case Num(m) => Num(m + n)
    case NaN => NaN
    case Str(s) => Str(s + Decimal(n))
    case Obj(_) => Str("[object Object]" + Decimal(n))
  }
}

=== FILE: load_mapping.dfy ===
/** `_afterSave` and `_afterLoad` (index.js lines 54-83), and `_loadMulti`
    (lines 20-22): the entity handed back to the modeling library for a
    Stripe customer object. */
module LoadMapping {
  import opened Js
  import opened Bookkeeping

  /** `_.omit(entity, 'id', internalProps)` (line 55). */
  function Omit(entity: Entity): Entity
  {
    map k | k in entity && k != "id" && !IsInternal(k) :: entity[k]
  }

  /** `prop + '_stripe'` for a bookkeeping property: the key its Stripe
      namesake is kept under. It is written as a table of literals, with
      `CollisionKeySpelling` tying it to the concatenation, because the
      proofs about the loops of lines 57-61 run out of resource when every
      key carries sequence-concatenation facts. `MarkOwner` is its inverse
      (`MarkOwnerOfMark`). */
  function CollisionKey(p: string): string
    requires IsInternal(p)
  {
    if p == "rev" then "rev_stripe"
    else if p == "created" then "created_stripe"
    else "updated_stripe"
  }

  /** The bookkeeping property whose collision key is `k`. */
  function MarkOwner(k: string): Option<string>
  {
    if k == "rev_stripe" then Some("rev")
    else if k == "created_stripe" then Some("created")
    else if k == "updated_stripe" then Some("updated")
    else None
  }

  /** The collision key is the property's name followed by the suffix. */
  lemma CollisionKeySpelling(p: string)
    requires IsInternal(p)
    ensures CollisionKey(p) == p + StripeSuffix
  {
    assert "rev" + StripeSuffix == "rev_stripe";
    assert "updated" + StripeSuffix == "updated_stripe";
  }

  /** `_beforeSave` (line 43) restores a collision key `_afterSave` made
      (line 59) to the bookkeeping name it came from. */
  lemma CollisionKeyRestores(p: string)
    requires IsInternal(p)
    ensures RenameTarget(CollisionKey(p)) == Some(p)
  {
    CollisionKeySpelling(p);
    SuffixedRestores(p);
  }

  /** `MarkOwner` inverts `CollisionKey`; a collision key is neither a
      bookkeeping name nor `id`. */
  lemma MarkOwnerOfMark()
    ensures forall p :: IsInternal(p) ==> MarkOwner(CollisionKey(p)) == Some(p)
    ensures forall k :: MarkOwner(k).Some? ==> IsInternal(MarkOwner(k).value) && CollisionKey(MarkOwner(k).value) == k
    ensures forall k :: MarkOwner(k).Some? ==> !IsInternal(k) && k != "id"
  {
  }

  /** `k` is the collision key of a bookkeeping property among `props`
      that `entity` has. */
  predicate MarkedBy(props: seq<string>, entity: Entity, k: string)
  {
    MarkOwner(k).Some? && MarkOwner(k).value in props && MarkOwner(k).value in entity
  }

  /** The collision keys marked by a list of names: those of its head, and
      those of its tail. */
  lemma MarkedBySplit(props: seq<string>, entity: Entity)
    requires props != [] && IsInternal(props[0])
    ensures forall k :: MarkedBy(props, entity, k) <==>
      MarkedBy(props[1..], entity, k) || (k == CollisionKey(props[0]) && props[0] in entity)
  {
    MarkOwnerOfMark();
    assert forall x :: x in props <==> x == props[0] || x in props[1..];
  }

  /** The loop of lines 57-61 as written: for each bookkeeping property of
      `entity`, `e[prop + '_stripe'] = e[prop]`, where `e` is the omitted
      copy. The loop visits `Object.keys(entity)` but acts only on the
      three bookkeeping names, each writing its own key, so visiting them
      in their declared order gives the same object. */
  function MarkCollisions(e: Entity, entity: Entity, props: seq<string>): (r: Entity)
    requires forall p :: p in props ==> IsInternal(p)
    requires forall k :: IsInternal(k) ==> k !in e
    decreases |props|
    ensures forall k :: IsInternal(k) ==> k !in r
    ensures forall k :: k in r <==> k in e || MarkedBy(props, entity, k)
    ensures forall k :: MarkedBy(props, entity, k) ==> r[k] == Undefined
    ensures forall k :: k in e && !MarkedBy(props, entity, k) ==> r[k] == e[k]
  {
    if props == [] then e
    else
      var p := props[0];
      MarkOwnerOfMark();
      MarkedBySplit(props, entity);
      var e' := if p in entity then e[CollisionKey(p) := Get(e, p)] else e;
      MarkCollisions(e', entity, props[1..])
  }

  /** `_afterSave(entity)`: Stripe's answer without `id` and the bookkeeping
      properties. Each bookkeeping property present gains a collision key
      `<prop>_stripe` (`CollisionKey`), but its value is undefined rather than the
      property's value, because the copy it reads from has already lost
      the property. Everything else is copied unchanged. */
  function AfterSave(entity: Entity): (r: Entity)
    ensures "id" !in r
    ensures forall k :: IsInternal(k) ==> k !in r
    ensures forall k :: k in r <==> (k in entity && k != "id" && !IsInternal(k)) || MarkedBy(InternalProps, entity, k)
    ensures forall p :: IsInternal(p) && p in entity ==> CollisionKey(p) in r && r[CollisionKey(p)] == Undefined
    ensures forall k :: k in entity && k != "id" && !IsInternal(k) && !MarkedBy(InternalProps, entity, k) ==>
      r[k] == entity[k]
  {
    MarkOwnerOfMark();
    MarkCollisions(Omit(entity), entity, InternalProps)
  }

  /** The loop of lines 57-61 as its comment says it should work: each
      bookkeeping property's value moves to its collision key. */
  function MoveCollisions(e: Entity, entity: Entity, props: seq<string>): (r: Entity)
    requires forall p :: p in props ==> IsInternal(p)
    requires forall k :: IsInternal(k) ==> k !in e
    decreases |props|
    ensures forall k :: IsInternal(k) ==> k !in r
    ensures forall k :: k in r <==> k in e || MarkedBy(props, entity, k)
    ensures forall k :: MarkedBy(props, entity, k) ==> r[k] == entity[MarkOwner(k).value]
    ensures forall k :: k in e && !MarkedBy(props, entity, k) ==> r[k] == e[k]
  {
    if props == [] then e
    else
      var p := props[0];
      MarkOwnerOfMark();
      MarkedBySplit(props, entity);
      var e' := if p in entity then e[CollisionKey(p) := entity[p]] else e;
      MoveCollisions(e', entity, props[1..])
  }

  /** `_afterSave` corrected: Stripe's own `rev`, `created` or `updated`
      survives under `<prop>_stripe`, where `_beforeSave` restores it from. */
  function AfterSaveIntended(entity: Entity): (r: Entity)
    ensures "id" !in r
    ensures forall k :: IsInternal(k) ==> k !in r
    ensures forall k :: k in r <==> (k in entity && k != "id" && !IsInternal(k)) || MarkedBy(InternalProps, entity, k)
    ensures forall p :: IsInternal(p) && p in entity ==> CollisionKey(p) in r && r[CollisionKey(p)] == entity[p]
    ensures forall k :: k in entity && k != "id" && !IsInternal(k) && !MarkedBy(InternalProps, entity, k) ==>
      r[k] == entity[k]
  {
    MarkOwnerOfMark();
    MoveCollisions(Omit(entity), entity, InternalProps)
  }

  /** As written, a Stripe `created` timestamp does not survive
      `_afterSave`: its collision key holds undefined. The corrected
      version keeps it. */
  lemma AfterSaveDropsCollisionValue()
    ensures var entity := map["id" := Str("cus_1"), "created" := Num(1500000000)];
      && "created_stripe" in AfterSave(entity)
      && AfterSave(entity)["created_stripe"] == Undefined
      && AfterSaveIntended(entity)["created_stripe"] == Num(1500000000)
  {
  }

  /** The blob `_afterLoad` reads: `entity.metadata.modeler`. */
  function Blob(entity: Entity): Value
  {
    PropOf(Get(entity, "metadata"), "modeler")
  }

  /** The guard of line 70. */
  predicate HasBlob(entity: Entity)
  {
    Truthy(Get(entity, "metadata")) && Truthy(Blob(entity))
  }

  /** Lines 76-80: each bookkeeping property the decoded blob has is copied
      onto `e`. */
  function Restore(e: Entity, meta: Entity, props: seq<string>): (r: Entity)
    decreases |props|
    ensures forall k :: k in props && k in meta ==> k in r && r[k] == meta[k]
    ensures forall k :: !(k in props && k in meta) ==> (k in r <==> k in e) && (k in r ==> r[k] == e[k])
  {
    if props == [] then e
    else
      var p := props[0];
      Restore(if p in meta then e[p := meta[p]] else e, meta, props[1..])
  }

  /** Lines 76-80 over the three bookkeeping names. */
  function RestoreBookkeeping(e: Entity, meta: Entity): (r: Entity)
    ensures forall k :: IsInternal(k) && k in meta ==> k in r && r[k] == meta[k]
    ensures forall k :: !(IsInternal(k) && k in meta) ==> (k in r <==> k in e) && (k in r ==> r[k] == e[k])
  {
    assert forall k :: k in InternalProps <==> IsInternal(k);
    Restore(e, meta, InternalProps)
  }

  /** Line 68: `_afterSave`'s result `base` with `id` set from the
      entity. */
  function WithId(base: Entity, entity: Entity): (e: Entity)
    requires forall k :: IsInternal(k) ==> k !in base
    ensures "id" in e && e["id"] == Get(entity, "id")
    ensures forall k :: IsInternal(k) ==> k !in e
    ensures forall k :: k != "id" ==> (k in e <==> k in base)
    ensures forall k :: k != "id" && k in e ==> e[k] == base[k]
  {
    base["id" := Get(entity, "id")]
  }

  /** Lines 67-82 applied to `_afterSave`'s result `base`: `id` set from
      the entity (undefined when it has none), then the bookkeeping
      properties restored from `metadata.modeler` when it is set. When the
      blob decodes to anything but an object, `prop in metadata` throws a
      TypeError, which nothing catches. */
  function LoadOnto(base: Entity, entity: Entity, codec: Codec): (r: Result<Entity>)
    requires forall k :: IsInternal(k) ==> k !in base
    ensures r.Err? <==> HasBlob(entity) && !Decoded(codec, Blob(entity)).Obj?
    ensures r.Err? ==> r.error == TypeError
    ensures r.Ok? ==> "id" in r.value && r.value["id"] == Get(entity, "id")
    ensures r.Ok? && !HasBlob(entity) ==> forall k :: IsInternal(k) ==> k !in r.value
    ensures r.Ok? && HasBlob(entity) ==> forall k :: IsInternal(k) ==>
      && (k in r.value <==> k in Decoded(codec, Blob(entity)).props)
      && (k in r.value ==> r.value[k] == Decoded(codec, Blob(entity)).props[k])
    ensures r.Ok? ==> forall k :: k != "id" && !IsInternal(k) ==>
      && (k in r.value <==> k in base)
      && (k in r.value ==> r.value[k] == base[k])
  {
    var e := WithId(base, entity);
    if HasBlob(entity) then
      var meta := Decoded(codec, Blob(entity));
      if meta.Obj? then Ok(RestoreBookkeeping(e, meta.props)) else Err(TypeError)
    else Ok(e)
  }

  /** `_afterLoad(entity)` (lines 65-83): `_afterSave` as written, then
      lines 67-82. On success the result carries exactly the bookkeeping
      properties the decoded blob has, with its values, none when there is
      no blob, and apart from `id` it is `_afterSave`'s result. */
  function AfterLoad(entity: Entity, codec: Codec): (r: Result<Entity>)
    ensures r.Err? <==> HasBlob(entity) && !Decoded(codec, Blob(entity)).Obj?
    ensures r.Err? ==> r.error == TypeError
    ensures r.Ok? ==> "id" in r.value && r.value["id"] == Get(entity, "id")
    ensures r.Ok? && !HasBlob(entity) ==> forall k :: IsInternal(k) ==> k !in r.value
    ensures r.Ok? && HasBlob(entity) ==> forall k :: IsInternal(k) ==>
      && (k in r.value <==> k in Decoded(codec, Blob(entity)).props)
      && (k in r.value ==> r.value[k] == Decoded(codec, Blob(entity)).props[k])
    ensures r.Ok? ==> forall k :: k != "id" && !IsInternal(k) ==>
      && (k in r.value <==> k in AfterSave(entity))
      && (k in r.value ==> r.value[k] == AfterSave(entity)[k])
  {
    LoadOnto(AfterSave(entity), entity, codec)
  }

  /** As written, every load loses Stripe's own `rev`, `created` and
      `updated`: their collision keys are present and hold undefined
      (lines 59 and 66). */
  lemma AfterLoadDropsCollisionValues(entity: Entity, codec: Codec)
    requires AfterLoad(entity, codec).Ok?
    ensures forall p :: IsInternal(p) && p in entity ==>
      CollisionKey(p) in AfterLoad(entity, codec).value && AfterLoad(entity, codec).value[CollisionKey(p)] == Undefined
  {
    MarkOwnerOfMark();
  }

  /** Lines 67-82 treat `id` and the bookkeeping properties alike whatever
      `_afterSave` returned. */
  lemma LoadOntoAgrees(base1: Entity, base2: Entity, entity: Entity, codec: Codec)
    requires forall k :: IsInternal(k) ==> k !in base1
    requires forall k :: IsInternal(k) ==> k !in base2
    ensures LoadOnto(base1, entity, codec).Ok? <==> LoadOnto(base2, entity, codec).Ok?
    ensures LoadOnto(base1, entity, codec).Ok? ==> forall k :: k == "id" || IsInternal(k) ==>
      && (k in LoadOnto(base1, entity, codec).value <==> k in LoadOnto(base2, entity, codec).value)
      && (k in LoadOnto(base1, entity, codec).value ==>
            LoadOnto(base1, entity, codec).value[k] == LoadOnto(base2, entity, codec).value[k])
  {
  }

  /** `_afterLoad` built on the corrected `_afterSave`. */
  function AfterLoadIntended(entity: Entity, codec: Codec): (r: Result<Entity>)
    ensures r.Ok? <==> AfterLoad(entity, codec).Ok?
    ensures r.Ok? ==> forall k :: k == "id" || IsInternal(k) ==>
      && (k in r.value <==> k in AfterLoad(entity, codec).value)
      && (k in r.value ==> r.value[k] == AfterLoad(entity, codec).value[k])
  {
    LoadOntoAgrees(AfterSaveIntended(entity), AfterSave(entity), entity, codec);
    LoadOnto(AfterSaveIntended(entity), entity, codec)
  }

  /** With the corrected `_afterSave`, Stripe's own `rev`, `created` or
      `updated` survives a load under its collision key. */
  lemma AfterLoadIntendedKeepsCollisionValues(entity: Entity, codec: Codec)
    requires AfterLoadIntended(entity, codec).Ok?
    ensures forall p :: IsInternal(p) && p in entity ==>
      CollisionKey(p) in AfterLoadIntended(entity, codec).value
      && AfterLoadIntended(entity, codec).value[CollisionKey(p)] == entity[p]
  {
    MarkOwnerOfMark();
  }

  /** `results.map(load)` for a `load` that may throw: the first failure
      escapes, otherwise each result is loaded in place. */
  function MapLoad(load: Entity -> Result<Entity>, results: seq<Entity>): (r: Result<seq<Entity>>)
    ensures r.Ok? <==> forall i :: 0 <= i < |results| ==> load(results[i]).Ok?
    ensures r.Err? ==> exists i :: 0 <= i < |results| && load(results[i]) == Err(r.error)
    ensures r.Ok? ==> |r.value| == |results|
    ensures r.Ok? ==> forall i :: 0 <= i < |results| ==> r.value[i] == load(results[i]).value
  {
    if results == [] then Ok([])
    else
      match load(results[0])
      case Err(err) => Err(err)
      case Ok(first) =>
        match MapLoad(load, results[1..])
        case Err(err) => Err(err)
        case Ok(rest) => Ok([first] + rest)
  }

  /** `_loadMulti(results)`: `_afterLoad` on each result, in order; the
      first TypeError escapes. */
  function LoadMulti(results: seq<Entity>, codec: Codec): (r: Result<seq<Entity>>)
    ensures r.Ok? <==> forall i :: 0 <= i < |results| ==> AfterLoad(results[i], codec).Ok?
    ensures r.Err? ==> r.error == TypeError
    ensures r.Ok? ==> |r.value| == |results|
    ensures r.Ok? ==> forall i :: 0 <= i < |results| ==> r.value[i] == AfterLoad(results[i], codec).value
  {
    MapLoad(e => AfterLoad(e, codec), results)
  }
}

=== FILE: options.dfy ===
/** The adapter's set-up checks (index.js lines 12-18): which options it
    refuses before it talks to Stripe. */
module Options {
  import opened Js
  import opened Strings

  /** The options the adapter keeps once set up. */
  datatype Config = Config(secretKey: Value, name: string, apiVersion: Value)

  const CollectionPrefix: string := "customers"

  /** Lines 12-14: a missing secret key is refused first, then a missing
      name; a name that is not a string has no `match` and throws a
      TypeError; a name that does not start with "customers" is refused
      with the name in the message. */
  function Configure(opts: Entity): (r: Result<Config>)
    ensures r.Ok? <==>
      (Truthy(Get(opts, "secret_key")) && Get(opts, "name").Str? && StartsWith(Get(opts, "name").s, CollectionPrefix))
    ensures !Truthy(Get(opts, "secret_key")) ==> r == Err(Error("secret key required"))
    ensures Truthy(Get(opts, "secret_key")) && !Truthy(Get(opts, "name")) ==> r == Err(Error("name required"))
    ensures Truthy(Get(opts, "secret_key")) && Truthy(Get(opts, "name")) && !Get(opts, "name").Str? ==>
      r == Err(TypeError)
    ensures r.Err? && Get(opts, "name").Str? && Truthy(Get(opts, "secret_key")) && Truthy(Get(opts, "name")) ==>
      r == Err(Error("collection not supported: " + Get(opts, "name").s))
    ensures r.Ok? ==> r.value.secretKey == opts["secret_key"] && Str(r.value.name) == opts["name"]
    ensures r.Ok? ==> r.value.apiVersion == Get(opts, "apiVersion")
  {
    var key := Get(opts, "secret_key");
    var name := Get(opts, "name");
    if !Truthy(key) then Err(Error("secret key required"))
    else if !Truthy(name) then Err(Error("name required"))
    else if !name.Str? then Err(TypeError)
    else if !StartsWith(name.s, CollectionPrefix) then Err(Error("collection not supported: " + name.s))
    else Ok(Config(key, name.s, Get(opts, "apiVersion")))
  }

  /** The name test is a prefix test, not an equality: with a secret key,
      every non-empty string name that begins with "customers" is accepted,
      and every other one is refused with the name in the message. */
  lemma ConfigureNamePrefix(key: Value, name: string)
    requires Truthy(key) && name != ""
    ensures var r := Configure(map["secret_key" := key, "name" := Str(name)]);
      && (r.Ok? <==> StartsWith(name, CollectionPrefix))
      && (r.Ok? ==> r.value.name == name && r.value.secretKey == key)
      && (r.Err? ==> r == Err(Error("collection not supported: " + name)))
  {
  }

  /** Three instances: "customers_archive" is accepted, "charges" is
      refused by name, and a missing secret key is reported before the
      name is looked at. */
  lemma ConfigureExamples()
    ensures Configure(map["secret_key" := Str("sk"), "name" := Str("customers_archive")]).Ok?
    ensures Configure(map["secret_key" := Str("sk"), "name" := Str("charges")])
      == Err(Error("collection not supported: charges"))
    ensures Configure(map["name" := Str("customers")]) == Err(Error("secret key required"))
  {
    assert "customers_archive"[..9] == CollectionPrefix;
    assert "collection not supported: " + "charges" == "collection not supported: charges";
  }
}

=== FILE: outcomes.dfy ===
/** `_load` and `_destroy` (index.js lines 119-134): how Stripe's answers
    to `retrieve` and `del` become the modeling library's results. */
module Outcomes {
  import opened Js
  import opened Strings
  import opened Bookkeeping
  import opened LoadMapping

  /** Stripe's "not found" answers, matched anywhere in the message
      (the pattern of line 121 is not anchored). */
  predicate IsNotFound(err: Error)
  {
    err.Error? && (Contains(err.message, "No such customer") || Contains(err.message, "No such card"))
  }

  /** `_load(id, cb)` once `collection.retrieve` answers with `err` and
      `saved`: a not-found error reads as no error; then a missing customer
      is reported as null (None) and a present one goes through
      `_afterLoad`, whose TypeError escapes. */
  function Load(err: Option<Error>, saved: Option<Entity>, codec: Codec): (r: Result<Option<Entity>>)
    ensures err.Some? && !IsNotFound(err.value) ==> r == Err(err.value)
    ensures r.Ok? <==> (err.None? || IsNotFound(err.value)) && (saved.None? || AfterLoad(saved.value, codec).Ok?)
    ensures r.Err? ==> (err.Some? && r.error == err.value && !IsNotFound(r.error)) || r.error == TypeError
    ensures r.Ok? ==> (r.value.Some? <==> saved.Some?)
    ensures r.Ok? && r.value.Some? ==> r.value.value == AfterLoad(saved.value, codec).value
  {
    if err.Some? && !IsNotFound(err.value) then Err(err.value)
    else if saved.None? then Ok(None)
    else
      match AfterLoad(saved.value, codec)
      case Err(e) => Err(e)
      case Ok(entity) => Ok(Some(entity))
  }

  /** A customer or card Stripe no longer knows loads as absent rather
      than as an error, wherever the phrase sits in the message. */
  lemma LoadMissingIsAbsent(codec: Codec, before: string, after: string)
    ensures Load(Some(Error(before + "No such customer" + after)), None, codec) == Ok(None)
    ensures Load(Some(Error(before + "No such card" + after)), None, codec) == Ok(None)
  {
    ContainsInMiddle(before, "No such customer", after);
    ContainsInMiddle(before, "No such card", after);
  }

  /** Any other error is passed on unchanged, whatever came back. */
  lemma LoadPassesOtherErrors(codec: Codec, message: string, saved: Option<Entity>)
    requires !Contains(message, "No such customer") && !Contains(message, "No such card")
    ensures Load(Some(Error(message)), saved, codec) == Err(Error(message))
  {
  }

  /** An authentication failure is one such error: neither phrase occurs
      in "Invalid API Key". */
  lemma InvalidKeyIsPassedOn(codec: Codec)
    ensures Load(Some(Error("Invalid API Key")), None, codec) == Err(Error("Invalid API Key"))
  {
    var s := "Invalid API Key";
    assert s[0] == 'I' && s[1] == 'n' && s[2] == 'v' && s[3] == 'a';
    forall j | 0 <= j && j + 12 <= |s|
      ensures !OccursAt(s, "No such card", j)
    {
      assert s[j..j + 12][0] == s[j];
    }
  }

  const DeleteFailed: string := "Delete failed"

  /** `_destroy(id, cb)` once `collection.del` answers with `err` and
      `confirmation`: success only when there is no error and the
      confirmation says `deleted`; Stripe's error unchanged; otherwise
      "Delete failed". */
  function Destroy(err: Option<Error>, confirmation: Value): (r: Result<()>)
    ensures r.Ok? <==> err.None? && Truthy(confirmation) && Truthy(PropOf(confirmation, "deleted"))
    ensures err.Some? ==> r == Err(err.value)
    ensures err.None? && r.Err? ==> r.error == Error(DeleteFailed)
  {
    if err.Some? then Err(err.value)
    else if !Truthy(confirmation) || !Truthy(PropOf(confirmation, "deleted")) then Err(Error(DeleteFailed))
    else Ok(())
  }
}

=== FILE: paging.dfy ===
/** `_head` and `_tail` (index.js lines 85-102): Stripe lists can only be
    read forwards, page by page, from an offset. */
module Paging {
  import opened Js

  const HeadUnsupported: string := "head() is not supported for Stripe lists - please use tail() instead"

  /** `_head(offset, count, cb)`: always fails, whatever it is asked for. */
  function Head(offset: Value, count: Value): (r: Result<seq<Entity>>)
    ensures r.Err? && r.error.Error? && r.error.message == HeadUnsupported
  {
    Err(Error(HeadUnsupported))
  }

  /** The parameters of one `collection.list` request. */
  datatype Params = Params(offset: Value, count: Option<Value>)

  /** Lines 91-95: the offset asked for is the current offset, or 0 when
      that is falsy; `count` is passed, unchanged, only when it lies between
      1 and 100, the range Stripe accepts. */
  function ListParams(offset: Value, count: Value): (r: Params)
    ensures Truthy(offset) ==> r.offset == offset
    ensures !Truthy(offset) ==> r.offset == Num(0)
    ensures r.count.Some? <==> Truthy(count) && AtLeast(count, 1) && AtMost(count, 100)
    ensures r.count.Some? ==> r.count.value == count
    ensures r.count.Some? ==> ToNumber(count).Some? && 1 <= ToNumber(count).value <= 100
    ensures count.Num? && 1 <= count.n <= 100 ==> r.count == Some(count)
  {
    Params(if Truthy(offset) then offset else Num(0),
           if Truthy(count) && AtLeast(count, 1) && AtMost(count, 100) then Some(count) else None)
  }

  /** Line 98: `offset += entities.data.length`, applied to the closure's
      own `offset`, not to the offset that was asked for. */
  function NextOffset(offset: Value, pageLen: nat): Value
  {
    AddCount(offset, pageLen)
  }

  /** The requests the `fetchNext` chain makes when pages of the lengths
      `pages` come back one after another: one before the first page, and
      one after each. */
  function Requests(offset: Value, count: Value, pages: seq<nat>): (r: seq<Params>)
    decreases |pages|
    ensures |r| == |pages| + 1
    ensures r[0] == ListParams(offset, count)
  {
    if pages == [] then [ListParams(offset, count)]
    else [ListParams(offset, count)] + Requests(NextOffset(offset, pages[0]), count, pages[1..])
  }

  function Sum(s: seq<nat>): nat
  {
    if s == [] then 0 else s[0] + Sum(s[1..])
  }

  lemma SumPrefix(pages: seq<nat>, i: nat)
    requires 1 <= i <= |pages|
    ensures Sum(pages[..i]) == pages[0] + Sum(pages[1..][..i - 1])
  {
    assert pages[..i][1..] == pages[1..][..i - 1];
  }

  /** Where a paging run starts: any number, or null, which reads as 0
      under `+` and as the falsy offset that is replaced by 0. */
  predicate NumericStart(offset: Value)
  {
    offset == Null || offset.Num?
  }

  function StartOf(offset: Value): int
    requires NumericStart(offset)
  {
    if offset.Num? then offset.n else 0
  }

  /** From a numeric (or null) offset, negative ones included, the pages
      are contiguous: the i-th request asks for the start plus the lengths
      of the pages before it, and every request keeps the same `count`. */
  lemma {:induction false} TailPagesContiguous(offset: Value, count: Value, pages: seq<nat>)
    requires NumericStart(offset)
    ensures forall i :: 0 <= i < |Requests(offset, count, pages)| ==>
      && Requests(offset, count, pages)[i].offset == Num(StartOf(offset) + Sum(pages[..i]))
      && Requests(offset, count, pages)[i].count == ListParams(offset, count).count
    decreases |pages|
  {
    var r := Requests(offset, count, pages);
    if pages != [] {
      var next := NextOffset(offset, pages[0]);
      assert next == Num(StartOf(offset) + pages[0]);
      TailPagesContiguous(next, count, pages[1..]);
      forall i | 1 <= i < |r|
        ensures r[i].offset == Num(StartOf(offset) + Sum(pages[..i]))
      {
        assert r[i] == Requests(next, count, pages[1..])[i - 1];
        SumPrefix(pages, i);
      }
    }
  }

  /** As written, a run that starts from an undefined offset never moves:
      `undefined + n` is NaN, NaN is falsy, so every request asks for
      offset 0 and the first page comes back again and again. */
  lemma {:induction false} TailUndefinedOffsetRepeats(offset: Value, count: Value, pages: seq<nat>)
    requires offset == Undefined || offset == NaN
    ensures forall i :: 0 <= i < |Requests(offset, count, pages)| ==>
      Requests(offset, count, pages)[i].offset == Num(0)
    decreases |pages|
  {
    if pages != [] {
      TailUndefinedOffsetRepeats(NaN, count, pages[1..]);
    }
  }

  /** Line 98 as evidently intended: the next offset follows the offset
      that was actually asked for. */
  function NextOffsetIntended(offset: Value, pageLen: nat): Value
  {
    AddCount(ListParams(offset, Undefined).offset, pageLen)
  }

  /** The `fetchNext` chain with the corrected offset update. */
  function RequestsIntended(offset: Value, count: Value, pages: seq<nat>): (r: seq<Params>)
    decreases |pages|
    ensures |r| == |pages| + 1
  {
    if pages == [] then [ListParams(offset, count)]
    else [ListParams(offset, count)] + RequestsIntended(NextOffsetIntended(offset, pages[0]), count, pages[1..])
  }

  /** Where a corrected run starts: any falsy offset counts as 0. */
  predicate StartsAnywhere(offset: Value)
  {
    !Truthy(offset) || (offset.Num? && offset.n >= 0)
  }

  function IntendedStart(offset: Value): nat
    requires StartsAnywhere(offset)
  {
    if offset.Num? then offset.n else 0
  }

  /** With the corrected update the pages are contiguous from every
      starting offset the source accepts as numeric, undefined included. */
  lemma {:induction false} TailIntendedContiguous(offset: Value, count: Value, pages: seq<nat>)
    requires StartsAnywhere(offset)
    ensures forall i :: 0 <= i < |RequestsIntended(offset, count, pages)| ==>
      RequestsIntended(offset, count, pages)[i].offset == Num(IntendedStart(offset) + Sum(pages[..i]))
    decreases |pages|
  {
    var r := RequestsIntended(offset, count, pages);
    if pages != [] {
      var next := NextOffsetIntended(offset, pages[0]);
      assert next == Num(IntendedStart(offset) + pages[0]);
      TailIntendedContiguous(next, count, pages[1..]);
      forall i | 1 <= i < |r|
        ensures r[i].offset == Num(IntendedStart(offset) + Sum(pages[..i]))
      {
        assert r[i] == RequestsIntended(next, count, pages[1..])[i - 1];
        SumPrefix(pages, i);
      }
    }
  }
}

=== FILE: save.dfy ===
/** `_save` (index.js lines 104-117): which Stripe call carries the
    payload, what the modeling library gets back, and how the bookkeeping
    travels through Stripe and back through `_afterLoad`. */
module Save {
  import opened Js
  import opened Bookkeeping
  import opened SaveMapping
  import opened LoadMapping

  /** The Stripe call `_save` makes: `create(payload)`, or
      `update(id, payload)`. */
  datatype Request = Create(payload: Entity) | Update(id: Value, payload: Entity)

  /** `_save`'s request: an update of `entity.id` once the revision is
      above 1, a creation otherwise; the payload is `_beforeSave`'s. */
  function SaveRequest(entity: Entity, order: seq<string>, codec: Codec): (r: Request)
    requires EnumeratesKeys(order, Prepare(entity))
    ensures r.Update? <==> GreaterThan(Get(entity, "rev"), 1)
    ensures r.Update? ==> r.id == Get(entity, "id")
    ensures r.payload == BeforeSave(entity, order, codec)
    ensures "metadata" in r.payload
  {
    var payload := BeforeSave(entity, order, codec);
    if GreaterThan(Get(entity, "rev"), 1) then Update(Get(entity, "id"), payload) else Create(payload)
  }

  /** The entity's `id` reaches Stripe exactly one way: as the customer to
      update, with no `id` in the payload, or inside the payload of a
      creation. */
  lemma SaveRequestCarriesId(entity: Entity, order: seq<string>, codec: Codec)
    requires EnumeratesKeys(order, Prepare(entity))
    requires NoClash(entity)
    requires !IsTargetIn(entity.Keys, "id")
    requires "id" in entity
    ensures var r := SaveRequest(entity, order, codec);
      || (r.Update? && r.id == entity["id"] && "id" !in r.payload)
      || (r.Create? && "id" in r.payload && r.payload["id"] == entity["id"])
  {
    BeforeSaveId(entity, order, codec);
  }

  /** What `_save` reports once Stripe answers (lines 106-115): Stripe's
      error unchanged, or `_afterSave` of the saved customer. As written,
      that reply carries Stripe's own `rev`, `created` and `updated` as
      undefined under their collision keys. */
  function SaveReply(err: Option<Error>, saved: Entity): (r: Result<Entity>)
    ensures err.Some? ==> r == Err(err.value)
    ensures err.None? ==> r.Ok? && "id" !in r.value && forall k :: IsInternal(k) ==> k !in r.value
    ensures err.None? ==> forall p :: IsInternal(p) && p in saved ==>
      CollisionKey(p) in r.value && r.value[CollisionKey(p)] == Undefined
    ensures err.None? ==> forall k :: k in saved && k != "id" && !IsInternal(k) ==>
      k in r.value && (MarkOwner(k).None? || MarkOwner(k).value !in saved ==> r.value[k] == saved[k])
  {
    if err.Some? then Err(err.value) else Ok(AfterSave(saved))
  }

  /** `_save`'s reply built on the corrected `_afterSave`: the collision
      keys hold Stripe's values. */
  function SaveReplyIntended(err: Option<Error>, saved: Entity): (r: Result<Entity>)
    ensures err.Some? ==> r == Err(err.value)
    ensures err.None? ==> r.Ok? && "id" !in r.value && forall k :: IsInternal(k) ==> k !in r.value
    ensures err.None? ==> forall p :: IsInternal(p) && p in saved ==>
      CollisionKey(p) in r.value && r.value[CollisionKey(p)] == saved[p]
  {
    if err.Some? then Err(err.value) else Ok(AfterSaveIntended(saved))
  }

  /** The blob `_beforeSave` writes is the encoding of the stash. */
  lemma WrittenBlob(entity: Entity, order: seq<string>, codec: Codec)
    requires EnumeratesKeys(order, Prepare(entity))
    requires NoClash(entity)
    requires MetadataWritable(entity)
    ensures Blob(BeforeSave(entity, order, codec)) == Str(codec.encode(Stash(entity)))
  {
    BeforeSaveStashesBookkeeping(entity, order, codec);
  }

  /** A customer whose blob decodes to `m` loads with exactly the
      bookkeeping properties of `m`, with their values. */
  lemma LoadOfDecodedBlob(stored: Entity, codec: Codec, m: Entity)
    requires HasBlob(stored)
    requires Decoded(codec, Blob(stored)) == Obj(m)
    ensures AfterLoad(stored, codec).Ok?
    ensures AfterLoad(stored, codec).value["id"] == Get(stored, "id")
    ensures forall k :: IsInternal(k) ==>
      && (k in AfterLoad(stored, codec).value <==> k in m)
      && (k in m ==> AfterLoad(stored, codec).value[k] == m[k])
  {
  }

  /** The bookkeeping survives the trip through Stripe: when a customer
      object comes back carrying the `metadata.modeler` blob that
      `_beforeSave` wrote, and decoding inverts encoding on the stashed
      properties, `_afterLoad` succeeds, restores exactly the entity's
      `rev`, `created` and `updated` with their values, and takes `id` from
      Stripe's object. */
  lemma SaveThenLoadRestoresBookkeeping(entity: Entity, order: seq<string>, codec: Codec, stored: Entity)
    requires EnumeratesKeys(order, Prepare(entity))
    requires NoClash(entity)
    requires MetadataWritable(entity)
    requires RoundTrips(codec, Stash(entity))
    requires Blob(stored) == Blob(BeforeSave(entity, order, codec))
    ensures AfterLoad(stored, codec).Ok?
    ensures AfterLoad(stored, codec).value["id"] == Get(stored, "id")
    ensures forall k :: IsInternal(k) ==>
      && (k in AfterLoad(stored, codec).value <==> k in entity)
      && (k in entity ==> AfterLoad(stored, codec).value[k] == entity[k])
  {
    WrittenBlob(entity, order, codec);
    assert HasBlob(stored);
    LoadOfDecodedBlob(stored, codec, Stash(entity));
  }

  /** What `_afterLoad` returns for a customer with a bookkeeping-named
      property lies outside `NoClash`: its collision key (line 59) restores
      a bookkeeping name on the next save. Every Stripe customer has
      `created`, so the save-side lemmas premised on `NoClash` never cover
      saving back a loaded entity; `ResaveLosesCreated` shows what goes
      wrong. */
  lemma LoadedBreaksNoClash(entity: Entity, codec: Codec, p: string)
    requires IsInternal(p) && p in entity
    requires AfterLoad(entity, codec).Ok?
    ensures CollisionKey(p) in AfterLoad(entity, codec).value
    ensures !NoClash(AfterLoad(entity, codec).value)
  {
    AfterLoadDropsCollisionValues(entity, codec);
    CollisionKeyRestores(p);
  }
}

=== FILE: save_mapping.dfy ===
/** `_beforeSave` (index.js lines 24-52): the payload sent to Stripe for an
    application entity. */
module SaveMapping {
  import opened Js
  import opened Strings
  import opened Bookkeeping

  /** The working copy before the loop (lines 25-31): a falsy `metadata` is
      replaced by an empty object, and `id` is dropped once the revision is
      above 1. */
  function Prepare(entity: Entity): (e: Entity)
    ensures "metadata" in e
    ensures Truthy(Get(entity, "metadata")) ==> e["metadata"] == entity["metadata"]
    ensures !Truthy(Get(entity, "metadata")) ==> e["metadata"] == Obj(map[])
    ensures "id" in e <==> "id" in entity && !GreaterThan(Get(entity, "rev"), 1)
    ensures forall k :: k != "id" && k != "metadata" ==> (k in e <==> k in entity)
    ensures forall k :: k in e && k != "metadata" ==> k in entity && e[k] == entity[k]
  {
    var withMeta := if Truthy(Get(entity, "metadata")) then entity else entity["metadata" := Obj(map[])];
    if GreaterThan(Get(withMeta, "rev"), 1) then withMeta - {"id"} else withMeta
  }

  /** `order` lists the keys of `e` once each, as `Object.keys(e)` does. */
  predicate EnumeratesKeys(order: seq<string>, e: Entity)
  {
    && (forall i, j :: 0 <= i < j < |order| ==> order[i] != order[j])
    && (forall k :: k in order ==> k in e)
    && (forall k :: k in e ==> k in order)
  }

  /** The loop's state: the working copy and the bookkeeping collected so far. */
  datatype Pass = Pass(e: Entity, stash: Entity)

  /** A key the loop takes out of the working copy. */
  predicate Moves(k: string)
  {
    IsInternal(k) || RenameTarget(k).Some?
  }

  /** One iteration of the loop of lines 34-46. */
  function Step(st: Pass, prop: string): Pass
  {
    if prop == "metadata" then st
    else if IsInternal(prop) then
      Pass(st.e - {prop}, st.stash[prop := Get(st.e, prop)])
    else
      match RenameTarget(prop)
      case Some(t) => Pass(st.e[t := Get(st.e, prop)] - {prop}, st.stash)
      case None => st
  }

  /** The loop over the snapshot `order` of the working copy's keys. Whatever
      the order, no collision key survives that the loop has visited. */
  function Run(p: Entity, order: seq<string>): (st: Pass)
    decreases |order|
    ensures forall k :: k in st.e && RenameTarget(k).Some? ==> k in p && k !in order
    ensures "metadata" in p ==> "metadata" in st.e
    ensures forall k :: k in st.stash ==> IsInternal(k)
  {
    if order == [] then Pass(p, map[])
    else
      var k := order[|order| - 1];
      SpecialNamesStay();
      assert RenameTarget(k).Some? ==> RenameTarget(RenameTarget(k).value).None? by {
        if RenameTarget(k).Some? { TargetIsFinal(k); }
      }
      Step(Run(p, order[..|order| - 1]), k)
  }

  /** Lines 47-50: the encoded blob goes into `metadata.modeler`. When
      `metadata` is not an object the assignment is lost (ignored on a
      primitive, or a TypeError that the catch swallows). */
  function WithModeler(e: Entity, blob: string): (r: Entity)
    ensures forall k :: k != "metadata" ==> (k in r <==> k in e) && (k in r ==> r[k] == e[k])
    ensures "metadata" in e ==> "metadata" in r
    ensures Get(e, "metadata").Obj? ==>
      r["metadata"] == Obj(Get(e, "metadata").props["modeler" := Str(blob)])
    ensures !Get(e, "metadata").Obj? ==> r == e
  {
    var meta := Get(e, "metadata");
    if meta.Obj? then e["metadata" := Obj(meta.props["modeler" := Str(blob)])] else e
  }

  /** `_beforeSave(entity)`, where `order` is the order in which
      `Object.keys` lists the working copy. Whatever the order, the payload
      carries `metadata` and no key with the `_stripe` suffix. */
  function BeforeSave(entity: Entity, order: seq<string>, codec: Codec): (r: Entity)
    requires EnumeratesKeys(order, Prepare(entity))
    ensures "metadata" in r
    ensures forall k :: k in r ==> RenameTarget(k).None?
  {
    var st := Run(Prepare(entity), order);
    WithModeler(st.e, codec.encode(st.stash))
  }

  /** `t` is the name restored from some collision key in `keys`. */
  ghost predicate IsTargetIn(keys: set<string>, t: string)
  {
    exists s :: s in keys && RenameTarget(s) == Some(t)
  }

  /** The collision keys of `e` restore distinct names, none of them a
      bookkeeping name. Under this the payload does not depend on key order.
      Distinctness is what the restored values need: `a_stripe` and
      `a_stripe_x` both restore `a`, and the later visit wins. The statements
      about the stash and `id` need only the second half, but they follow
      from the same loop invariant (`Processed`) and so carry both. */
  ghost predicate NoClash(e: Entity)
  {
    && (forall s1, s2 :: s1 in e && s2 in e && RenameTarget(s1).Some? && RenameTarget(s1) == RenameTarget(s2) ==> s1 == s2)
    && (forall s :: s in e && RenameTarget(s).Some? ==> !IsInternal(RenameTarget(s).value))
  }

  /** What the loop has done once the keys `d` of `p` are visited, stated
      without reference to the order of the visits. */
  ghost predicate Processed(p: Entity, d: set<string>, st: Pass)
  {
    && d <= p.Keys
    && st.stash == (map k | k in d && IsInternal(k) :: p[k])
    && KeysAfter(p, d, st.e)
    && RenamedAfter(p, d, st.e)
    && KeptAfter(p, d, st.e)
  }

  /** The copy holds the keys not yet moved out, and the restored names. */
  ghost predicate KeysAfter(p: Entity, d: set<string>, e: Entity)
  {
    forall k :: k in e <==> (k in p && !(k in d && Moves(k))) || IsTargetIn(d, k)
  }

  /** Each visited collision key's value sits under its restored name. */
  ghost predicate RenamedAfter(p: Entity, d: set<string>, e: Entity)
  {
    forall s :: s in d && s in p && RenameTarget(s).Some? ==>
      RenameTarget(s).value in e && e[RenameTarget(s).value] == p[s]
  }

  /** Every other key still holds its original value. */
  ghost predicate KeptAfter(p: Entity, d: set<string>, e: Entity)
  {
    forall k :: k in p && !(k in d && Moves(k)) && !IsTargetIn(d, k) ==> k in e && e[k] == p[k]
  }

  /** Visiting a key that restores no name leaves the restored names as they were. */
  lemma TargetsWithout(d: set<string>, k: string, x: string)
    requires RenameTarget(k).None?
    ensures IsTargetIn(d + {k}, x) <==> IsTargetIn(d, x)
  {
    if IsTargetIn(d + {k}, x) {
      var s :| s in d + {k} && RenameTarget(s) == Some(x);
      assert s != k;
    }
  }

  /** Visiting a collision key adds exactly its restored name. */
  lemma TargetsWith(d: set<string>, k: string, x: string)
    requires RenameTarget(k).Some?
    ensures IsTargetIn(d + {k}, x) <==> IsTargetIn(d, x) || x == RenameTarget(k).value
  {
    if IsTargetIn(d + {k}, x) && x != RenameTarget(k).value {
      var s :| s in d + {k} && RenameTarget(s) == Some(x);
      assert s != k;
    }
  }

  /** Visiting a key the loop leaves alone (`metadata`, or a plain key). */
  lemma StepKeeps(p: Entity, d: set<string>, st: Pass, k: string)
    requires Processed(p, d, st)
    requires k in p && k !in d && !Moves(k)
    ensures Processed(p, d + {k}, Step(st, k))
  {
    SpecialNamesStay();
    assert Step(st, k) == st;
    StashSkips(p, d, k);
    KeepsKeys(p, d, st.e, k);
    KeepsKept(p, d, st.e, k);
  }

  lemma KeepsKeys(p: Entity, d: set<string>, e: Entity, k: string)
    requires KeysAfter(p, d, e)
    requires !Moves(k)
    ensures KeysAfter(p, d + {k}, e)
  {
    forall x
      ensures IsTargetIn(d + {k}, x) <==> IsTargetIn(d, x)
    {
      TargetsWithout(d, k, x);
    }
  }

  lemma KeepsKept(p: Entity, d: set<string>, e: Entity, k: string)
    requires KeptAfter(p, d, e)
    requires !Moves(k)
    ensures KeptAfter(p, d + {k}, e)
  {
    forall x
      ensures IsTargetIn(d + {k}, x) <==> IsTargetIn(d, x)
    {
      TargetsWithout(d, k, x);
    }
  }

  /** Visiting a bookkeeping key: it leaves the copy for the stash. */
  lemma StepStashes(p: Entity, d: set<string>, st: Pass, k: string)
    requires NoClash(p)
    requires Processed(p, d, st)
    requires k in p && k !in d && IsInternal(k)
    ensures Processed(p, d + {k}, Step(st, k))
  {
    InternalNotTarget(p, d, k);
    assert k in st.e && st.e[k] == p[k];
    assert Step(st, k) == Pass(st.e - {k}, st.stash[k := p[k]]);
    StashGrows(p, d, st.stash, k);
    StashesKeys(p, d, st, k);
    StashesKept(p, d, st, k);
  }

  lemma InternalNotTarget(p: Entity, d: set<string>, k: string)
    requires NoClash(p) && d <= p.Keys && IsInternal(k)
    ensures !IsTargetIn(d, k)
  {
  }

  lemma StashGrows(p: Entity, d: set<string>, stash: Entity, k: string)
    requires d <= p.Keys && k in p && IsInternal(k)
    requires stash == (map x | x in d && IsInternal(x) :: p[x])
    ensures stash[k := p[k]] == (map x | x in d + {k} && IsInternal(x) :: p[x])
  {
  }

  lemma StashesKeys(p: Entity, d: set<string>, st: Pass, k: string)
    requires Processed(p, d, st)
    requires k in p && k !in d && IsInternal(k) && !IsTargetIn(d, k)
    ensures KeysAfter(p, d + {k}, st.e - {k})
    ensures RenamedAfter(p, d + {k}, st.e - {k})
  {
    SpecialNamesStay();
    var e' := st.e - {k};
    forall x
      ensures x in e' <==> (x in p && !(x in d + {k} && Moves(x))) || IsTargetIn(d + {k}, x)
    {
      TargetsWithout(d, k, x);
    }
  }

  lemma StashesKept(p: Entity, d: set<string>, st: Pass, k: string)
    requires Processed(p, d, st)
    requires k in p && k !in d && IsInternal(k)
    ensures KeptAfter(p, d + {k}, st.e - {k})
  {
    SpecialNamesStay();
    forall x
      ensures IsTargetIn(d + {k}, x) <==> IsTargetIn(d, x)
    {
      TargetsWithout(d, k, x);
    }
  }

  /** Visiting a collision key: its value moves to the restored name. */
  lemma StepRenames(p: Entity, d: set<string>, st: Pass, k: string)
    requires NoClash(p)
    requires Processed(p, d, st)
    requires k in p && k !in d && RenameTarget(k).Some?
    ensures Processed(p, d + {k}, Step(st, k))
  {
    SpecialNamesStay();
    var t := RenameTarget(k).value;
    CollisionKeyIsNoTarget(d, k);
    assert k in st.e && st.e[k] == p[k];
    assert Step(st, k) == Pass(st.e[t := p[k]] - {k}, st.stash);
    StashSkips(p, d, k);
    RenamesKeys(p, d, st, k);
    RenamesRenamed(p, d, st, k);
    RenamesKept(p, d, st, k);
  }

  /** A key carrying the suffix is never a restored name. */
  lemma CollisionKeyIsNoTarget(d: set<string>, k: string)
    requires RenameTarget(k).Some?
    ensures !IsTargetIn(d, k)
  {
    if IsTargetIn(d, k) {
      var s :| s in d && RenameTarget(s) == Some(k);
      TargetIsFinal(s);
    }
  }

  lemma StashSkips(p: Entity, d: set<string>, k: string)
    requires d <= p.Keys && k in p && !IsInternal(k)
    ensures (map x | x in d + {k} && IsInternal(x) :: p[x]) == (map x | x in d && IsInternal(x) :: p[x])
  {
  }

  lemma RenamesKeys(p: Entity, d: set<string>, st: Pass, k: string)
    requires Processed(p, d, st)
    requires k in p && k !in d && RenameTarget(k).Some? && !IsTargetIn(d, k)
    ensures KeysAfter(p, d + {k}, st.e[RenameTarget(k).value := p[k]] - {k})
  {
    TargetIsFinal(k);
    var t := RenameTarget(k).value;
    var e' := st.e[t := p[k]] - {k};
    forall x
      ensures x in e' <==> (x in p && !(x in d + {k} && Moves(x))) || IsTargetIn(d + {k}, x)
    {
      TargetsWith(d, k, x);
      if x == t {
        assert x in e';
      } else if x == k {
        assert !IsTargetIn(d + {k}, x);
      }
    }
  }

  lemma RenamesRenamed(p: Entity, d: set<string>, st: Pass, k: string)
    requires NoClash(p)
    requires d <= p.Keys && RenamedAfter(p, d, st.e)
    requires k in p && RenameTarget(k).Some?
    ensures RenamedAfter(p, d + {k}, st.e[RenameTarget(k).value := p[k]] - {k})
  {
    var t := RenameTarget(k).value;
    var e' := st.e[t := p[k]] - {k};
    TargetIsFinal(k);
    forall s | s in d + {k} && s in p && RenameTarget(s).Some?
      ensures RenameTarget(s).value in e' && e'[RenameTarget(s).value] == p[s]
    {
      if s != k {
        assert RenameTarget(s).value != t;
        TargetIsFinal(s);
      }
    }
  }

  lemma RenamesKept(p: Entity, d: set<string>, st: Pass, k: string)
    requires Processed(p, d, st)
    requires k in p && k !in d && RenameTarget(k).Some?
    ensures KeptAfter(p, d + {k}, st.e[RenameTarget(k).value := p[k]] - {k})
  {
    TargetIsFinal(k);
    forall x
      ensures IsTargetIn(d + {k}, x) <==> IsTargetIn(d, x) || x == RenameTarget(k).value
    {
      TargetsWith(d, k, x);
    }
  }

  /** One more visited key keeps the order-free description. */
  lemma ProcessStep(p: Entity, d: set<string>, st: Pass, k: string)
    requires NoClash(p)
    requires Processed(p, d, st)
    requires k in p && k !in d
    ensures Processed(p, d + {k}, Step(st, k))
  {
    if IsInternal(k) {
      StepStashes(p, d, st, k);
    } else if RenameTarget(k).Some? {
      StepRenames(p, d, st, k);
    } else {
      StepKeeps(p, d, st, k);
    }
  }

  /** In a list without repetitions, the last entry is not among the others. */
  lemma LastIsNew(order: seq<string>)
    requires |order| > 0
    requires forall i, j :: 0 <= i < j < |order| ==> order[i] != order[j]
    ensures order[|order| - 1] !in order[..|order| - 1]
  {
    var pre := order[..|order| - 1];
    forall i | 0 <= i < |pre|
      ensures pre[i] != order[|order| - 1]
    {
      assert pre[i] == order[i];
    }
  }

  /** The loop meets its order-free description, whatever the visiting order. */
  lemma {:induction false} RunProcesses(p: Entity, order: seq<string>)
    requires NoClash(p)
    requires forall i, j :: 0 <= i < j < |order| ==> order[i] != order[j]
    requires forall k :: k in order ==> k in p
    ensures Processed(p, (set k | k in order), Run(p, order))
    decreases |order|
  {
    if order == [] {
      assert (set k | k in order) == {};
    } else {
      var pre := order[..|order| - 1];
      var k := order[|order| - 1];
      LastIsNew(order);
      var d := set x | x in pre;
      assert (set x | x in order) == d + {k} by {
        assert order == pre + [k];
      }
      RunProcesses(p, pre);
      ProcessStep(p, d, Run(p, pre), k);
    }
  }

  /** The prepared copy restores the same names as the entity itself. */
  lemma PreparedTargets(entity: Entity, x: string)
    ensures IsTargetIn(Prepare(entity).Keys, x) <==> IsTargetIn(entity.Keys, x)
  {
    SpecialNamesStay();
    var p := Prepare(entity);
    if IsTargetIn(p.Keys, x) {
      var s :| s in p.Keys && RenameTarget(s) == Some(x);
      assert s in entity.Keys;
    }
    if IsTargetIn(entity.Keys, x) {
      var s :| s in entity.Keys && RenameTarget(s) == Some(x);
      assert s in p.Keys;
    }
  }

  /** The loop over all keys of the prepared copy, read off in terms of the
      entity itself. */
  lemma LoopOutcome(entity: Entity, order: seq<string>)
    requires EnumeratesKeys(order, Prepare(entity))
    requires NoClash(entity)
    ensures Processed(Prepare(entity), Prepare(entity).Keys, Run(Prepare(entity), order))
    ensures Run(Prepare(entity), order).stash == Stash(entity)
  {
    var p := Prepare(entity);
    PreparedNoClash(entity);
    assert (set k | k in order) == p.Keys;
    RunProcesses(p, order);
    PreparedStash(entity);
  }

  lemma PreparedNoClash(entity: Entity)
    requires NoClash(entity)
    ensures NoClash(Prepare(entity))
  {
    SpecialNamesStay();
  }

  lemma PreparedStash(entity: Entity)
    ensures (map k | k in Prepare(entity).Keys && IsInternal(k) :: Prepare(entity)[k]) == Stash(entity)
  {
  }

  /** Entity metadata that `_beforeSave` can write into: absent or falsy
      (an empty object takes its place), or an object, and not replaced by
      a `metadata_stripe`-style key. */
  ghost predicate MetadataWritable(entity: Entity)
  {
    && (!Truthy(Get(entity, "metadata")) || Get(entity, "metadata").Obj?)
    && !IsTargetIn(entity.Keys, "metadata")
  }

  /** The application's own metadata entries, which the payload keeps. */
  function BaseMetadata(entity: Entity): Entity
  {
    if Get(entity, "metadata").Obj? then Get(entity, "metadata").props else map[]
  }

  /** The loop leaves no bookkeeping property in the working copy. */
  lemma LoopDropsBookkeeping(entity: Entity, order: seq<string>)
    requires EnumeratesKeys(order, Prepare(entity))
    requires NoClash(entity)
    ensures forall k :: IsInternal(k) ==> k !in Run(Prepare(entity), order).e
  {
    LoopOutcome(entity, order);
    var p := Prepare(entity);
    forall k | IsInternal(k)
      ensures k !in Run(p, order).e
    {
      InternalNotTarget(p, p.Keys, k);
    }
  }

  /** The loop leaves writable metadata as the prepared copy has it. */
  lemma LoopKeepsMetadata(entity: Entity, order: seq<string>)
    requires EnumeratesKeys(order, Prepare(entity))
    requires NoClash(entity)
    requires MetadataWritable(entity)
    ensures Run(Prepare(entity), order).e["metadata"] == Prepare(entity)["metadata"]
  {
    SpecialNamesStay();
    LoopOutcome(entity, order);
    PreparedTargets(entity, "metadata");
  }

  /** Bookkeeping goes to `metadata.modeler`: no bookkeeping property stays
      at the top level, and the blob is the encoding of exactly the
      bookkeeping properties the entity had, with their values, next to the
      application's own metadata entries. */
  lemma BeforeSaveStashesBookkeeping(entity: Entity, order: seq<string>, codec: Codec)
    requires EnumeratesKeys(order, Prepare(entity))
    requires NoClash(entity)
    ensures forall k :: IsInternal(k) ==> k !in BeforeSave(entity, order, codec)
    ensures MetadataWritable(entity) ==>
      BeforeSave(entity, order, codec)["metadata"]
        == Obj(BaseMetadata(entity)["modeler" := Str(codec.encode(Stash(entity)))])
  {
    SpecialNamesStay();
    LoopDropsBookkeeping(entity, order);
    LoopOutcome(entity, order);
    if MetadataWritable(entity) {
      LoopKeepsMetadata(entity, order);
    }
  }

  /** `id` reaches the payload exactly when the entity has one and its
      revision is not above 1, and then unchanged. */
  lemma BeforeSaveId(entity: Entity, order: seq<string>, codec: Codec)
    requires EnumeratesKeys(order, Prepare(entity))
    requires NoClash(entity)
    requires !IsTargetIn(entity.Keys, "id")
    ensures "id" in BeforeSave(entity, order, codec)
      <==> "id" in entity && !GreaterThan(Get(entity, "rev"), 1)
    ensures "id" in BeforeSave(entity, order, codec) ==>
      BeforeSave(entity, order, codec)["id"] == entity["id"]
  {
    SpecialNamesStay();
    LoopOutcome(entity, order);
    PreparedTargets(entity, "id");
  }

  /** Every collision key is gone from the payload and its value sits under
      the restored name, overriding any property of that name; only a
      restored `metadata` may still gain the blob. */
  lemma BeforeSaveRenames(entity: Entity, order: seq<string>, codec: Codec)
    requires EnumeratesKeys(order, Prepare(entity))
    requires NoClash(entity)
    ensures forall s :: s in entity && RenameTarget(s).Some? ==>
      && s !in BeforeSave(entity, order, codec)
      && RenameTarget(s).value in BeforeSave(entity, order, codec)
      && (RenameTarget(s).value != "metadata" ==>
            BeforeSave(entity, order, codec)[RenameTarget(s).value] == entity[s])
  {
    SpecialNamesStay();
    LoopOutcome(entity, order);
    var p := Prepare(entity);
    var st := Run(p, order);
    forall s | s in entity && RenameTarget(s).Some?
      ensures s !in st.e
      ensures RenameTarget(s).value in st.e && st.e[RenameTarget(s).value] == entity[s]
    {
      assert s in p;
      TargetIsFinal(s);
    }
  }

  /** Every other property passes through with its value, and nothing
      else appears: the payload's keys are `metadata`, the entity's keys
      the loop leaves alone, and restored names. */
  lemma BeforeSavePassThrough(entity: Entity, order: seq<string>, codec: Codec)
    requires EnumeratesKeys(order, Prepare(entity))
    requires NoClash(entity)
    ensures forall k :: k in entity && k != "id" && k != "metadata" && !Moves(k) && !IsTargetIn(entity.Keys, k) ==>
      k in BeforeSave(entity, order, codec) && BeforeSave(entity, order, codec)[k] == entity[k]
    ensures forall k :: k in BeforeSave(entity, order, codec) ==>
      k == "metadata" || (k in entity && !Moves(k)) || IsTargetIn(entity.Keys, k)
  {
    SpecialNamesStay();
    LoopOutcome(entity, order);
    var p := Prepare(entity);
    var st := Run(p, order);
    forall k | k in entity && k != "id" && k != "metadata" && !Moves(k) && !IsTargetIn(entity.Keys, k)
      ensures k in st.e && st.e[k] == entity[k]
    {
      PreparedTargets(entity, k);
    }
    forall k | k in st.e
      ensures k == "metadata" || (k in entity && !Moves(k)) || IsTargetIn(entity.Keys, k)
    {
      PreparedTargets(entity, k);
    }
  }

  /** The collision key of the counterexample below restores `rev`. */
  lemma RevStripeRestoresRev()
    ensures RenameTarget("rev_stripe") == Some("rev")
  {
    assert "rev_stripe"[3..10] == StripeSuffix;
    assert "rev_stripe"[..3] == "rev";
    assert "rev_stripe"[2..9][0] != StripeSuffix[0];
    assert "rev_stripe"[1..8][0] != StripeSuffix[0];
    assert "rev_stripe"[0..7][0] != StripeSuffix[0];
    assert RenameFrom("rev_stripe", 3) == Some("rev");
    assert RenameFrom("rev_stripe", 2) == Some("rev");
    assert RenameFrom("rev_stripe", 1) == Some("rev");
  }

  /** Visiting `rev` before `rev_stripe`: the renamed value stays at the top. */
  lemma RevFirst(p: Entity)
    requires p == map["rev" := Num(1), "rev_stripe" := Str("x"), "metadata" := Obj(map[])]
    ensures "rev" in Run(p, ["rev", "rev_stripe", "metadata"]).e
  {
    SpecialNamesStay();
    RevStripeRestoresRev();
    var order := ["rev", "rev_stripe", "metadata"];
    assert order[..2] == ["rev", "rev_stripe"] && order[..2][..1] == ["rev"] && order[..2][..1][..0] == [];
    var st1 := Run(p, ["rev"]);
    assert st1 == Step(Pass(p, map[]), "rev");
    assert st1.e == p - {"rev"};
    var st2 := Run(p, ["rev", "rev_stripe"]);
    assert st2 == Step(st1, "rev_stripe");
    assert st2.e == st1.e["rev" := Str("x")] - {"rev_stripe"};
    assert Run(p, order) == Step(st2, "metadata") == st2;
  }

  /** Visiting `rev_stripe` before `rev`: the renamed value is stashed. */
  lemma RevLast(p: Entity)
    requires p == map["rev" := Num(1), "rev_stripe" := Str("x"), "metadata" := Obj(map[])]
    ensures "rev" !in Run(p, ["rev_stripe", "rev", "metadata"]).e
  {
    SpecialNamesStay();
    RevStripeRestoresRev();
    var order := ["rev_stripe", "rev", "metadata"];
    assert order[..2] == ["rev_stripe", "rev"] && order[..2][..1] == ["rev_stripe"] && order[..2][..1][..0] == [];
    var st1 := Run(p, ["rev_stripe"]);
    assert st1 == Step(Pass(p, map[]), "rev_stripe");
    var st2 := Run(p, ["rev_stripe", "rev"]);
    assert st2 == Step(st1, "rev");
    assert st2.e == st1.e - {"rev"};
    assert Run(p, order) == Step(st2, "metadata") == st2;
  }

  /** Both orders list the keys of the example's prepared copy. */
  lemma OrderExampleEnumerates(entity: Entity)
    requires entity == map["rev" := Num(1), "rev_stripe" := Str("x")]
    ensures Prepare(entity) == map["rev" := Num(1), "rev_stripe" := Str("x"), "metadata" := Obj(map[])]
    ensures EnumeratesKeys(["rev", "rev_stripe", "metadata"], Prepare(entity))
    ensures EnumeratesKeys(["rev_stripe", "rev", "metadata"], Prepare(entity))
  {
    assert Prepare(entity) == entity["metadata" := Obj(map[])];
  }

  /** Without the no-clash premise the payload depends on key order: with
      both `rev` and `rev_stripe` present, visiting `rev` first leaves the
      renamed value at the top level, visiting it last stashes it instead. */
  lemma BeforeSaveOrderMatters(codec: Codec)
    ensures var entity := map["rev" := Num(1), "rev_stripe" := Str("x")];
      && EnumeratesKeys(["rev", "rev_stripe", "metadata"], Prepare(entity))
      && EnumeratesKeys(["rev_stripe", "rev", "metadata"], Prepare(entity))
      && "rev" in BeforeSave(entity, ["rev", "rev_stripe", "metadata"], codec)
      && "rev" !in BeforeSave(entity, ["rev_stripe", "rev", "metadata"], codec)
  {
    var entity := map["rev" := Num(1), "rev_stripe" := Str("x")];
    OrderExampleEnumerates(entity);
    var p := Prepare(entity);
    RevFirst(p);
    RevLast(p);
  }

  /** The collision key of the example below restores `created`. */
  lemma CreatedStripeRestoresCreated()
    ensures RenameTarget("created_stripe") == Some("created")
  {
    assert "created" + StripeSuffix == "created_stripe";
    SuffixedRestores("created");
  }

  /** The order `_afterLoad`'s insertion order gives the example below
      lists the keys of its prepared copy. */
  lemma ResaveExampleEnumerates(entity: Entity)
    requires entity == map["created_stripe" := Undefined, "created" := Num(5)]
    ensures Prepare(entity) == map["created_stripe" := Undefined, "created" := Num(5), "metadata" := Obj(map[])]
    ensures EnumeratesKeys(["metadata", "created_stripe", "created"], Prepare(entity))
  {
    SpecialNamesStay();
    assert Prepare(entity) == entity["metadata" := Obj(map[])];
  }

  /** Visiting `created_stripe` before `created` stashes undefined. */
  lemma CreatedOverwritten(p: Entity)
    requires p == map["created_stripe" := Undefined, "created" := Num(5), "metadata" := Obj(map[])]
    ensures Run(p, ["metadata", "created_stripe", "created"]).stash["created"] == Undefined
  {
    SpecialNamesStay();
    CreatedStripeRestoresCreated();
    var order := ["metadata", "created_stripe", "created"];
    assert order[..2] == ["metadata", "created_stripe"] && order[..2][..1] == ["metadata"] && order[..2][..1][..0] == [];
    var st1 := Run(p, ["metadata"]);
    assert st1 == Step(Pass(p, map[]), "metadata") == Pass(p, map[]);
    var st2 := Run(p, ["metadata", "created_stripe"]);
    assert st2 == Step(st1, "created_stripe");
    assert st2.e["created"] == Undefined;
    assert Run(p, order) == Step(st2, "created");
  }

  /** Re-saving an entity the adapter loaded loses the modeling library's
      `created`: `_afterLoad` adds `created_stripe` (undefined) before it
      restores `created`, so the loop visits `created_stripe` first, line 43
      overwrites `created` with undefined, and line 38 then stashes that.
      The corrected loop stashes the library's value. */
  lemma ResaveLosesCreated()
    ensures var entity := map["created_stripe" := Undefined, "created" := Num(5)];
      var order := ["metadata", "created_stripe", "created"];
      && EnumeratesKeys(order, Prepare(entity))
      && Stash(entity)["created"] == Num(5)
      && Run(Prepare(entity), order).stash["created"] == Undefined
      && RunIntended(Prepare(entity), order).stash["created"] == Num(5)
  {
    var entity := map["created_stripe" := Undefined, "created" := Num(5)];
    var order := ["metadata", "created_stripe", "created"];
    ResaveExampleEnumerates(entity);
    CreatedOverwritten(Prepare(entity));
    LoopIntendedStashes(entity, order);
  }

  /** One iteration of the loop with line 38 as evidently intended: the
      stash takes the prepared copy's own value of a bookkeeping property,
      whatever a collision key visited earlier wrote over it. */
  function StepIntended(p: Entity, st: Pass, prop: string): Pass
  {
    if prop == "metadata" then st
    else if IsInternal(prop) then
      Pass(st.e - {prop}, st.stash[prop := Get(p, prop)])
    else
      match RenameTarget(prop)
      case Some(t) => Pass(st.e[t := Get(st.e, prop)] - {prop}, st.stash)
      case None => st
  }

  /** The corrected loop over the snapshot `order` of `p`'s keys. */
  function RunIntended(p: Entity, order: seq<string>): Pass
    decreases |order|
  {
    if order == [] then Pass(p, map[])
    else StepIntended(p, RunIntended(p, order[..|order| - 1]), order[|order| - 1])
  }

  /** With the corrected line 38, the stash is the visited bookkeeping
      properties with their original values, in any order and with no
      premise on collision keys. */
  lemma {:induction false} RunIntendedStashes(p: Entity, order: seq<string>)
    requires forall k :: k in order ==> k in p
    decreases |order|
    ensures RunIntended(p, order).stash == (map k | k in order && IsInternal(k) :: p[k])
  {
    if order != [] {
      var pre := order[..|order| - 1];
      var last := order[|order| - 1];
      assert forall k :: k in order <==> k in pre || k == last;
      RunIntendedStashes(p, pre);
    }
  }

  /** The corrected loop over every key of the prepared copy stashes exactly
      the entity's bookkeeping properties with their values, whatever the
      key order and whatever collision keys the entity carries. */
  lemma LoopIntendedStashes(entity: Entity, order: seq<string>)
    requires EnumeratesKeys(order, Prepare(entity))
    ensures RunIntended(Prepare(entity), order).stash == Stash(entity)
  {
    RunIntendedStashes(Prepare(entity), order);
    PreparedStash(entity);
  }
}

=== FILE: strings.dfy ===
/** Substring search as `String.prototype.indexOf` does it, and the two
    string tests the adapter builds on it. */
module Strings {

  /** `pat` occurs in `s` starting at index `i`. */
  predicate OccursAt(s: string, pat: string, i: int)
  {
    0 <= i && i + |pat| <= |s| && s[i..i + |pat|] == pat
  }

  /** The first occurrence of `pat` in `s` at or after `i`, or -1. */
  function IndexFrom(s: string, pat: string, i: nat): (r: int)
    requires i <= |s|
    decreases |s| - i
    ensures r == -1 || (i <= r && OccursAt(s, pat, r))
    ensures r == -1 ==> forall j :: i <= j ==> !OccursAt(s, pat, j)
    ensures r != -1 ==> forall j :: i <= j < r ==> !OccursAt(s, pat, j)
  {
    if i + |pat| > |s| then -1
    else if s[i..i + |pat|] == pat then i
    else IndexFrom(s, pat, i + 1)
  }

  /** `s.indexOf(pat)`: the first index where `pat` occurs, or -1 when it
      occurs nowhere. */
  function IndexOf(s: string, pat: string): (r: int)
    ensures r == -1 || OccursAt(s, pat, r)
    ensures r == -1 <==> forall j :: !OccursAt(s, pat, j)
    ensures forall j :: 0 <= j < r ==> !OccursAt(s, pat, j)
  {
    IndexFrom(s, pat, 0)
  }

  /** `pat` occurs somewhere in `s`: an unanchored regular-expression match
      of a literal. */
  predicate Contains(s: string, pat: string)
  {
    IndexOf(s, pat) >= 0
  }

  /** `s` starts with `p`: the anchored match `/^(?:p)/`. */
  predicate StartsWith(s: string, p: string)
  {
    |p| <= |s| && s[..|p|] == p
  }

  /** Whatever surrounds it, `pat` occurs in `a + pat + b`. */
  lemma ContainsInMiddle(a: string, pat: string, b: string)
    ensures OccursAt(a + pat + b, pat, |a|)
    ensures Contains(a + pat + b, pat)
  {
    assert (a + pat + b)[|a|..|a| + |pat|] == pat;
    assert OccursAt(a + pat + b, pat, |a|);
  }

  /** An occurrence inside a prefix of `s` is an occurrence in `s`. */
  lemma OccursInPrefix(s: string, n: nat, pat: string, j: int)
    requires n <= |s|
    requires OccursAt(s[..n], pat, j)
    ensures OccursAt(s, pat, j)
  {
    assert s[..n][j..j + |pat|] == s[j..j + |pat|];
  }
}
